=== FILE: README.md ===
# VODPress job lifecycle, in Dafny

This project models the server-side core of the VODPress WordPress plugin: the job
lifecycle that submits a video URL to an external conversion server, tracks the job in
the `vodpress_videos` table, retries and deletes jobs, and applies the server's status
callbacks. Every WordPress, HTTP and database call is replaced by an input: the remote
server is a script of replies (one per attempt), the URL probe, the uuid generator and
the database's refusal of an insert or a delete is a flag of the operation, and `sha256`, `parse_url` and
`sanitize_text_field` are function parameters.

Modules (one file each):

- `Common`: `Option`, `Result`, `Field` (a column of a partial update), and PHP string truthiness (`""` and `"0"` are falsy).
- `Decimal`: the `%d` rendering of integers used in messages and in the duration column, with its parse-back.
- `Format`: `format_duration` and `get_status_label`.
- `Client`: `VODPressAPIClient`: the retrying `send_video_request` and `delete_video_from_s3`, and the single-shot `remove_from_queue`.
- `Store`: the table: a `map<int, Job>` with an auto-increment counter, a UNIQUE uuid, partial updates by id or uuid, delete, and the title search.
- `Lifecycle`: `ajax_submit_video`, `send_video`, `validate_video_url`, `ajax_retry_video` with `retry_existing_video`, and `ajax_delete_video` with its deletion gates.
- `Callback`: `handle_conversion_callback`: hash check, required fields, URL rewriting, and the update by uuid.
- `Listing`: the job list of `ajax_get_videos_status`.
- `Scenarios`: concrete runs of the situations the plugin is built for.

Each lifecycle operation returns the new table, the caller-facing result and the list of
requests sent to the conversion server. Every operation preserves the table invariant
`Store.Valid`: ids lie below the auto-increment counter and no two rows share a uuid.

Behaviours of the code that are easy to misread:

- A retry does not look at the job's status. Any existing row can be retried.
- A successful retry leaves the row `pending`. It never becomes `queued` or `downloading`.
- During deletion, errors from `remove_from_queue` other than `video_processing` are ignored.
- A search term of `"0"` counts as empty in PHP, so it lists every job.
- The label table's key is the hyphenated `uploading-original`. A status spelled `uploading_original` is shown verbatim.
- A uuid already in use makes the insert fail, which is reported as `db_error`, the same error as any other refused insert.
- When `parse_url` finds no path, the callback stores the bare trimmed base, because the code only tests for `false`.

## Model

| member | source | states |
|---|---|---|
| `Decimal.NatToString` | VODPress.php:301-303 | The decimal spelling of a natural number has at least one digit and no leading zero. It has one digit exactly below 10. |
| `Decimal.IntToString` | VODPress.php:421 | `%d` and `"$response_code"` print a non-negative code as digits that read back as the code, with no leading zero (0 is `"0"`). A negative one is printed as '-' followed by such digits, again with no leading zero. |
| `Decimal.NatToStringRoundTrip` | VODPress.php:734 | The digits of a rendered number read back as the number. |
| `Format.ClockOf` | VODPress.php:296-298 | The hours, minutes and seconds add back up to the total. Minutes and seconds are below 60. Hours are non-zero exactly from 3600 seconds on. |
| `Format.ClockOfUnique` | VODPress.php:296-298 | These are the only fields with in-range minutes and seconds that add up to the total. |
| `Format.Pad2` | VODPress.php:301-303 | `%02d` reads back as the number. Below 100 it has exactly two digits, and from 10 on it is the unpadded decimal spelling. |
| `Format.FormatDuration` | VODPress.php:290-294 | The result is `"-"` exactly when the seconds are not positive. |
| `Format.FormatDurationRoundTrip` | VODPress.php:290-305 | A positive duration's text reads back as its clock fields. It has three fields from one hour on and two below. |
| `Format.SplitColonJoin` | VODPress.php:301-303 | Splitting `a:b` on the colon gives `a` followed by the fields of `b`, when `a` contains no colon. |
| `Format.StatusLabel` | VODPress.php:269-282 | A known status gets its label. The result equals the status exactly when the status has no label. |
| `Format.UnderscoreStateHasNoLabel` | VODPress.php:275 | Only the hyphenated `uploading-original` has a label; the underscore spelling is shown as it is. |
| `Client.Attempt` | VODPress.php:704-745 | The retry loop makes at most `MaxRetries` attempts. Every attempt before the last one failed. It stops early only on a 200, or on a busy 409 in the delete variant. The error carries the last attempt's message. It sleeps 2×n seconds after failed attempt n. |
| `Client.SendVideoRequest` | VODPress.php:702-746 | Success happens exactly when one of the two attempts answers 200, and the body is that of the first 200. Otherwise both attempts were made and the `api_error` carries the second attempt's message. |
| `Client.DeleteVideoFromS3` | VODPress.php:837-881 | Same as the convert call. In addition, a busy 409 ends the loop at once with `video_processing`. |
| `Client.RemoveFromQueue` | VODPress.php:753-797 | One attempt. 404 is a non-error "not supported". A busy 409 is `video_processing`. Any other non-200 is `api_error` with the code in its message. A transport error passes through. 200 returns the body. |
| `Client.TwoTransportFailures` | VODPress.php:738-743 | Two transport failures give `api_error` with the second message, after two attempts and one 2-second sleep. |
| `Client.BusyDeleteStopsAtOnce` | VODPress.php:863-866 | A busy 409 on the first delete attempt returns `video_processing` after one attempt and no sleep. |
| `Store.Apply` | VODPress.php:513-521 | A column the update sets takes the update's value, and every other column keeps its old value. uuid, video URL and title never change. |
| `Store.ApplyIdempotent` | VODPress.php:634-676 | Applying the same partial update twice equals applying it once. |
| `Store.Insert` | VODPress.php:373-385 | The insert succeeds exactly when the database does not fail and the uuid is unused. The new row gets the next id, and the table invariant is kept. |
| `Store.UpdateById` | VODPress.php:389 | Only the addressed row changes, and only in the patched columns. |
| `Store.UpdateByUuid` | VODPress.php:676 | Every row carrying the uuid is patched and all others are untouched. With no such row the table is unchanged. |
| `Store.UpdateByUuidIdempotent` | VODPress.php:676 | Patching by uuid twice with the same update equals patching once. |
| `Store.Remove` | VODPress.php:597 | Exactly the addressed row disappears. |
| `Store.Collect` | VODPress.php:437-443 | It returns the matching ids below the bound, each exactly once, in strictly decreasing order. |
| `Store.Search` | VODPress.php:434-444 | Every id returned is a row whose title contains the term, or any row for an empty term. The ids are newest first. On a valid table every matching row is returned. |
| `Lifecycle.ValidateVideoUrl` | VODPress.php:408-425 | The URL passes exactly when it is well formed and the probe answers 200, 206, 301, 302 or 303. Otherwise the matching error is returned. The HTTP error's message is the fixed prefix followed by the status code, which reads back exactly. |
| `Lifecycle.SendVideo` | VODPress.php:351-406 | A missing configuration, a bad URL or a refused insert leaves the table unchanged and sends nothing. Otherwise exactly one new `pending` row is added under a uuid no other row has, and one convert request is sent. A remote error makes the row `failed` with the message, the row is kept, and the error answered carries that same message. Success makes it `downloading` if the reply names this uuid as current, else `queued` if a queue position is present, else it stays `pending`. |
| `Lifecycle.AcceptedPatch` | VODPress.php:394-401 | A convert reply asks for `downloading` exactly when it names this uuid as current. It asks for `queued` exactly when it does not but has a queue position. Otherwise the status is left alone. No other column changes. |
| `Lifecycle.SubmitVideo` | VODPress.php:307-344 | A missing API key, server URL, video URL or title is rejected with its own message, with no change and no request. When all checks pass, the table and requests are those of `SendVideo`. Its error is passed on unchanged, including the `failed` row kept after a remote error. Its success becomes the submitted message, with exactly one row added. |
| `Lifecycle.RetryVideo` | VODPress.php:466-539 | The set of rows never changes and other rows are untouched. Id 0, an unknown id and a missing configuration are rejected with no change. Otherwise the row's own uuid and URL are resent whatever its status, and only status and error change. Success leaves it `pending` with no error and answers the retry message. A remote error leaves it `failed`, and the caller gets the very message the row records. |
| `Lifecycle.DeleteGate` | VODPress.php:568-594 | Deletion aborts exactly when a job still in the queue gets `video_processing` from the queue removal, or a completed job with a conversion URL gets `video_processing` from the storage delete. The abort shows the client's queue message or delete message respectively. It is partial exactly when that storage delete fails otherwise. A failed job, or a completed one without a URL, passes. |
| `Lifecycle.DeleteVideo` | VODPress.php:541-607 | Only the target row can disappear, and only when the gates pass and the database delete succeeds. An abort or a database failure leaves the table unchanged. The message says whether the storage cleanup failed. The requests sent are exactly the gates' calls. |
| `Callback.TrimTrailingSlashes` | VODPress.php:644 | `rtrim(s, '/')` is a prefix of `s` that does not end in `/`. Everything it drops is `/`. |
| `Callback.RewriteUrl` | VODPress.php:639-651 | With a truthy public base, the stored URL is the trimmed base followed by the parsed path. It is the bare trimmed base when there is no path, and the URL unchanged when it cannot be parsed or there is no base. |
| `Callback.RewriteJoinKeepsPathSlashes` | VODPress.php:644 | The base contributes no slash at the join: the result is the slash-free base followed by the path. So the slashes at the join are exactly the path's own leading ones: one for `/x/y.mp4`, two for `//x`. |
| `Callback.RewriteRelativePathAddsNoSlash` | VODPress.php:644 | A path not starting with `/` is glued straight onto the slash-free base, with no slash between them. |
| `Callback.Authorized` | VODPress.php:613-617 | The callback is authorized exactly when the header equals the sha256 of the configured key, or of the empty string when no key is defined, and the header is truthy. |
| `Callback.CallbackPatch` | VODPress.php:632-674 | The status is stored verbatim. `error_message` is set exactly when the status is `failed` and an error is present. Duration is set exactly when given. Each URL is set exactly when it is a truthy string, and the value stored is its rewrite onto the public base. |
| `Callback.HandleCallback` | VODPress.php:611-678 | A missing, falsy or wrong hash is unauthorized with no change. A missing uuid or status is invalid with no change. Otherwise the callback is accepted: rows with that uuid get the patch, other rows are unchanged, and an unknown uuid changes nothing. |
| `Callback.CallbackIdempotent` | VODPress.php:611-678 | Delivering the same callback twice gives the same table and verdict as delivering it once. |
| `Callback.CallbackKeepsIdentity` | VODPress.php:676 | A callback never changes a row's uuid, video URL or title. |
| `Listing.ListVideos` | VODPress.php:427-464 | The list has one entry per id the search returns, in the search's newest-first order. Each entry shows that row's columns with its status label and formatted duration. |
| `Listing.Rows` | VODPress.php:447-461 | One entry per id, in the order given, each showing that id's row. |
| `Scenarios.SubmitStartsDownloading` | VODPress.php:397-398 | A reply naming the new uuid as currently processing makes the new row `downloading`. |
| `Scenarios.SubmitQueues` | VODPress.php:399-400 | A reply with a queue position makes the new row `queued`. |
| `Scenarios.SubmitFailsTwice` | VODPress.php:387-390 | Two transport failures keep the row, `failed`, with the last message. |
| `Scenarios.SubmitUnreachable` | VODPress.php:419-422 | A probe answering 404 rejects the URL, creates no row and sends nothing. |
| `Scenarios.DeleteBlockedWhileProcessing` | VODPress.php:571-578 | A queued job the server reports as processing is not deleted. |
| `Scenarios.CallbackCompletes` | VODPress.php:634-676 | With no public base, a completion report stores status, URL and duration as sent. |
| `Scenarios.CallbackRewritesUrl` | VODPress.php:639-676 | A callback carrying `https://origin/x/y.mp4`, with base `https://r2.example.com/`, stores `https://r2.example.com/x/y.mp4` in the row. The base without a slash gives the same URL. |
| `Scenarios.RelativePathRewrite` | VODPress.php:644 | The relative path `out.m3u8` under base `https://r2.example.com/` becomes `https://r2.example.comout.m3u8`. |
| `Scenarios.CallbackWrongHash` | VODPress.php:613-619 | A forged hash changes nothing and is unauthorized. |

## Left out

- Admin pages, settings, menus, asset enqueueing, translations and nonce checks: framework glue. Messages are the untranslated English strings.
- `assets/js/script.js`: browser polling and rendering, with no server-side state.
- Timestamps (`created_at`, `updated_at`) and `format_date`: clock and date parsing. The list's "newest first" order is modelled as descending auto-increment id.
- `sleep` itself: the retry loop only returns the delays it would sleep.
- The request bodies and headers the client sends (callback URL, site URL, public base, API-key hash): they do not affect any outcome. The requests are recorded only by kind, video URL and uuid.
- `get_queue_status`: nothing in the lifecycle calls it.
- The activation hook's table creation and uuid backfill: database migration.
- Concurrency between a callback and a retry: each operation is one atomic step here.
- `Store.UpdateByUuid`: uuids are compared exactly. Under the table's case-insensitive (`_ci`) collation, `WHERE uuid = ...` also matches a uuid that differs only in letter case. The uuids the plugin generates are lower-case, and case folding is not modelled.
- `Store.Insert`: the UNIQUE uuid key is checked with exact comparison. Under a `_ci` collation it also rejects a uuid that differs only in letter case.
- `Lifecycle.SendVideo`: every `UPDATE` after the insert is taken to succeed. The code ignores `$wpdb->update`'s result, so a failed UPDATE would leave the row as it was while the code carries on.
- `Lifecycle.RetryVideo`: both `UPDATE`s are taken to succeed. Their results are ignored by the code, as above.
- `Callback.HandleCallback`: the `UPDATE` by uuid is taken to succeed. Its result is ignored, and the handler answers success regardless.
- `Listing.ListVideos`: the search term's `sanitize_text_field` is taken as already applied. In the code a term made only of spaces is trimmed to empty and so lists every job.
- `Store.Search`: the SQL `LIKE` collation (case-insensitive matching) and `esc_like` are not modelled. The match is an exact substring match.
- `Callback.HandleCallback`: JSON values that are not strings (or, for duration, not integers) and the `intval` conversion are not modelled. Fields are strings, or absent.
- `Lifecycle.SendVideo`: loose PHP `==` between numeric-looking strings is treated as string equality.
- `Lifecycle.SubmitVideo`: `esc_url_raw` on the URL and `sanitize_text_field` on the title are taken as already applied. In the code a title made only of spaces is emptied by sanitising and then rejected as missing.
- `Client.SendVideoRequest`: the reply script must cover `MaxRetries` attempts. This is a property of the modelled environment, not a demand of the code.

=== FILE: callback.dfy ===
/**
 * `handle_conversion_callback`: the conversion server's status report. It is checked
 * against the API-key hash, turned into a partial update (with storage URLs rewritten
 * onto the public base) and applied to the row with the reported uuid.
 */
module Callback {
  import opened Common
  import opened Store
  import opened Lifecycle

  /** What `parse_url($url, PHP_URL_PATH)` gives: a path, `null` (no path) or `false` (malformed URL). */
  datatype PathPart = Path(path: string) | NoPath | Malformed

  /** The library functions the handler calls, taken as given. */
  datatype Primitives = Primitives(
    sha256: string -> string,         // hash('sha256', ...), as hex
    parsePath: string -> PathPart,    // parse_url(..., PHP_URL_PATH)
    sanitize: string -> string)       // sanitize_text_field

  /** The request: the `X-API-Key-Hash` header and the JSON body's fields, absent when missing. */
  datatype CallbackRequest = CallbackRequest(
    keyHash: Option<string>,
    videoUuid: Option<string>,
    status: Option<string>,
    conversionUrl: Option<string>,
    originalUrl: Option<string>,
    duration: Option<int>,
    error: Option<string>)

  datatype Verdict = Accepted | Unauthorized | InvalidParams

  /** The header is present, truthy and equal to the hash of the configured key ('' when undefined). */
  function Authorized(cfg: Config, prim: Primitives, keyHash: Option<string>): (ok: bool)
    ensures ok ==> TruthyOpt(keyHash) && keyHash == Some(prim.sha256(cfg.apiKey.GetOr("")))
    ensures keyHash == Some(prim.sha256(cfg.apiKey.GetOr(""))) && Truthy(keyHash.value) ==> ok
    ensures cfg.apiKey.None? ==> (ok <==> keyHash == Some(prim.sha256("")) && Truthy(keyHash.value))
  {
    TruthyOpt(keyHash) && keyHash.value == prim.sha256(cfg.apiKey.GetOr(""))
  }

  /** `rtrim($s, '/')`. */
  function TrimTrailingSlashes(s: string): (r: string)
    ensures r <= s
    ensures |r| == 0 || r[|r| - 1] != '/'
    ensures forall i | |r| <= i < |s| :: s[i] == '/'
    decreases |s|
  {
    if |s| > 0 && s[|s| - 1] == '/' then TrimTrailingSlashes(s[..|s| - 1]) else s
  }

  /**
   * The stored form of a storage URL: with a truthy public base, the base without its
   * trailing slashes followed by the URL's path; the URL itself when there is no base or
   * the URL cannot be parsed.
   */
  function RewriteUrl(url: string, base: string, prim: Primitives): (r: string)
    ensures !Truthy(base) || prim.parsePath(url).Malformed? ==> r == url
    ensures Truthy(base) && prim.parsePath(url).Path? ==>
              r == TrimTrailingSlashes(base) + prim.parsePath(url).path
    ensures Truthy(base) && prim.parsePath(url).NoPath? ==> r == TrimTrailingSlashes(base)
  {
    if Truthy(base) then
      match prim.parsePath(url)
      case Path(p) => TrimTrailingSlashes(base) + p
      case NoPath => TrimTrailingSlashes(base)
      case Malformed => url
    else url
  }

  /**
   * At the join the base contributes no slash: whatever slashes the base ends with, the
   * result is the slash-free base followed by the path, so the slashes at the join are
   * exactly the path's own leading ones (one for a path like `/x/y.mp4`).
   */
  lemma RewriteJoinKeepsPathSlashes(url: string, base: string, prim: Primitives, p: string)
    requires Truthy(base) && prim.parsePath(url) == Path(p) && |p| > 0 && p[0] == '/'
    ensures var r := RewriteUrl(url, base, prim);
            var k := |TrimTrailingSlashes(base)|;
            && r[..k] == TrimTrailingSlashes(base) && r[k..] == p
            && (k == 0 || r[k - 1] != '/') && r[k] == '/'
  {
  }

  /**
   * A path that does not start with '/' is glued straight onto the slash-free base:
   * no slash is put between them.
   */
  lemma RewriteRelativePathAddsNoSlash(url: string, base: string, prim: Primitives, p: string)
    requires Truthy(base) && prim.parsePath(url) == Path(p) && |p| > 0 && p[0] != '/'
    ensures var r := RewriteUrl(url, base, prim);
            var k := |TrimTrailingSlashes(base)|;
            && r == TrimTrailingSlashes(base) + p
            && (k == 0 || r[k - 1] != '/') && r[k] != '/'
  {
  }

  /** The stored value of a URL field: set only when the field is a truthy string. */
  function UrlField(url: Option<string>, base: string, prim: Primitives): Field<string> {
    if TruthyOpt(url) then Set(RewriteUrl(url.value, base, prim)) else Keep
  }

  /** The partial update a well-formed callback asks for. */
  function CallbackPatch(cfg: Config, prim: Primitives, req: CallbackRequest): (p: Patch)
    requires req.status.Some?
    ensures p.status == Set(req.status.value)
    ensures p.errorMessage.Set? <==> req.status.value == "failed" && req.error.Some?
    ensures p.errorMessage.Set? ==> p.errorMessage.value == Some(prim.sanitize(req.error.value))
    ensures p.duration.Set? <==> req.duration.Some?
    ensures p.duration.Set? ==> p.duration.value == req.duration.value
    ensures p.conversionUrl.Set? <==> TruthyOpt(req.conversionUrl)
    ensures p.conversionUrl.Set? ==> p.conversionUrl.value == RewriteUrl(req.conversionUrl.value, cfg.publicUrlBase, prim)
    ensures p.originalUrl.Set? <==> TruthyOpt(req.originalUrl)
    ensures p.originalUrl.Set? ==> p.originalUrl.value == RewriteUrl(req.originalUrl.value, cfg.publicUrlBase, prim)
  {
    Patch(
      Set(req.status.value),
      UrlField(req.conversionUrl, cfg.publicUrlBase, prim),
      UrlField(req.originalUrl, cfg.publicUrlBase, prim),
      if req.status.value == "failed" && req.error.Some? then Set(Some(prim.sanitize(req.error.value))) else Keep,
      if req.duration.Some? then Set(req.duration.value) else Keep)
  }

  /** The handler: the new table and its verdict. */
  function HandleCallback(cfg: Config, prim: Primitives, t: Table, req: CallbackRequest): (o: (Table, Verdict))
    ensures !Authorized(cfg, prim, req.keyHash) ==> o == (t, Unauthorized)
    ensures Authorized(cfg, prim, req.keyHash) && !(TruthyOpt(req.videoUuid) && TruthyOpt(req.status)) ==>
              o == (t, InvalidParams)
    ensures o.1 == Accepted <==>
              Authorized(cfg, prim, req.keyHash) && TruthyOpt(req.videoUuid) && TruthyOpt(req.status)
    ensures o.1 == Accepted && !UuidTaken(t.rows, req.videoUuid.value) ==> o.0 == t
    ensures o.0.nextId == t.nextId && o.0.rows.Keys == t.rows.Keys
    ensures o.1 == Accepted ==>
              forall id | id in t.rows ::
                if t.rows[id].uuid == req.videoUuid.value
                then o.0.rows[id] == Apply(t.rows[id], CallbackPatch(cfg, prim, req))
                else o.0.rows[id] == t.rows[id]
    ensures Valid(t) ==> Valid(o.0)
  {
    if !Authorized(cfg, prim, req.keyHash) then (t, Unauthorized)
    else if !(TruthyOpt(req.videoUuid) && TruthyOpt(req.status)) then (t, InvalidParams)
    else (UpdateByUuid(t, req.videoUuid.value, CallbackPatch(cfg, prim, req)), Accepted)
  }

  /** Delivering the same callback twice leaves the table as delivering it once. */
  lemma CallbackIdempotent(cfg: Config, prim: Primitives, t: Table, req: CallbackRequest)
    ensures var once := HandleCallback(cfg, prim, t, req);
            HandleCallback(cfg, prim, once.0, req) == once
  {
    if Authorized(cfg, prim, req.keyHash) && TruthyOpt(req.videoUuid) && TruthyOpt(req.status) {
      UpdateByUuidIdempotent(t, req.videoUuid.value, CallbackPatch(cfg, prim, req));
    }
  }

  /** The callback never touches identity columns: every row keeps its uuid, video URL and title. */
  lemma CallbackKeepsIdentity(cfg: Config, prim: Primitives, t: Table, req: CallbackRequest, id: int)
    requires id in t.rows
    ensures var r := HandleCallback(cfg, prim, t, req).0.rows[id];
            r.uuid == t.rows[id].uuid && r.videoUrl == t.rows[id].videoUrl && r.title == t.rows[id].title
  {
  }
}

=== FILE: client.dfy ===
/**
 * The conversion-server client: the `/api/convert` and `/api/delete` calls with their
 * bounded retry loop, and the single-shot `/api/remove-from-queue` call.
 *
 * A call is modelled by the script of replies the server gives, one per attempt; the
 * request bodies, the API-key hash header and the timeout do not affect the outcome.
 */
module Client {
  import opened Common
  import Decimal

  /** Number of attempts the retrying calls make. */
  const MaxRetries: nat := 2

  /** The decoded JSON reply body, with the fields the plugin reads. */
  datatype Body = Body(isProcessing: bool, currentlyProcessing: Option<string>, queuePosition: Option<int>)

  /** What one attempt yields: a transport-level error, or an HTTP status code with its body. */
  datatype Reply = TransportError(message: string) | Http(code: int, body: Body)

  datatype ClientError =
    | ApiError(message: string)          // `api_error`
    | VideoProcessing(message: string)   // `video_processing`: the server is working on the video
    | TransportFailure(message: string)  // the transport's own error, passed through unchanged
  {
    function Message(): string {
      match this
      case ApiError(m) => m
      case VideoProcessing(m) => m
      case TransportFailure(m) => m
    }
  }

  const RemoveBlockedMessage := "Video is currently being processed and cannot be removed from queue"
  const DeleteBlockedMessage := "Video is currently being processed and cannot be deleted"
  const QueueUnsupportedMessage := "Queue management not supported by server"

  predicate IsOk(r: Reply) {
    r.Http? && r.code == 200
  }

  /** A 409 whose body says the video is being processed. */
  predicate IsBusy(r: Reply) {
    r.Http? && r.code == 409 && r.body.isProcessing
  }

  function StatusCodeMessage(code: int): string {
    "Server returned status code: " + Decimal.IntToString(code)
  }

  /** The message of the exception a failed attempt raises inside the retry loop. */
  function FailureMessage(r: Reply): string {
    match r
    case TransportError(m) => m
    case Http(code, _) => StatusCodeMessage(code)
  }

  /** Whether the retry loop returns after this reply (success, or a busy 409 when it checks for one). */
  predicate Stops(r: Reply, busyAware: bool) {
    IsOk(r) || (busyAware && IsBusy(r))
  }

  /** The outcome of a retrying call: its result, the attempts made and the back-off delays slept, in seconds. */
  datatype Call = Call(result: Result<Body, ClientError>, attempts: nat, delays: seq<nat>)

  /**
   * The retry loop from attempt number `attempt` (0-based) on. `busyAware` selects the
   * `/api/delete` variant, which gives up at once on a busy 409.
   */
  function Attempt(replies: seq<Reply>, attempt: nat, busyAware: bool): (c: Call)
    requires attempt < MaxRetries <= |replies|
    ensures attempt < c.attempts <= MaxRetries
    ensures forall j | attempt <= j < c.attempts - 1 :: !Stops(replies[j], busyAware)
    ensures c.attempts < MaxRetries ==> Stops(replies[c.attempts - 1], busyAware)
    ensures c.result.Success? <==> IsOk(replies[c.attempts - 1])
    ensures c.result.Success? ==> c.result.value == replies[c.attempts - 1].body
    ensures c.result.Failure? ==>
              c.result.error == (if busyAware && IsBusy(replies[c.attempts - 1])
                                 then VideoProcessing(DeleteBlockedMessage)
                                 else ApiError(FailureMessage(replies[c.attempts - 1])))
    ensures |c.delays| == c.attempts - 1 - attempt
    ensures forall i | 0 <= i < |c.delays| :: c.delays[i] == 2 * (attempt + i + 1)
    decreases MaxRetries - attempt
  {
    var reply := replies[attempt];
    if busyAware && IsBusy(reply) then
      Call(Failure(VideoProcessing(DeleteBlockedMessage)), attempt + 1, [])
    else if IsOk(reply) then
      Call(Success(reply.body), attempt + 1, [])
    else if attempt + 1 >= MaxRetries then
      Call(Failure(ApiError(FailureMessage(reply))), attempt + 1, [])
    else
      var rest := Attempt(replies, attempt + 1, busyAware);
      Call(rest.result, rest.attempts, [2 * (attempt + 1)] + rest.delays)
  }

  /**
   * `send_video_request`: at most `MaxRetries` attempts, returning the body of the first
   * 200; otherwise an `api_error` with the last attempt's message.
   */
  function SendVideoRequest(replies: seq<Reply>): (c: Call)
    requires MaxRetries <= |replies|
    ensures 1 <= c.attempts <= MaxRetries
    ensures c.result.Success? <==> exists i | 0 <= i < MaxRetries :: IsOk(replies[i])
    ensures forall j | 0 <= j < c.attempts - 1 :: !IsOk(replies[j])
    ensures c.result.Success? ==> IsOk(replies[c.attempts - 1]) && c.result.value == replies[c.attempts - 1].body
    ensures c.result.Failure? ==>
              c.attempts == MaxRetries && c.result.error == ApiError(FailureMessage(replies[MaxRetries - 1]))
    ensures |c.delays| == c.attempts - 1 && forall i | 0 <= i < |c.delays| :: c.delays[i] == 2 * (i + 1)
  {
    Attempt(replies, 0, false)
  }

  /**
   * `delete_video_from_s3`: like `SendVideoRequest`, but a busy 409 ends the loop at once
   * with `video_processing`.
   */
  function DeleteVideoFromS3(replies: seq<Reply>): (c: Call)
    requires MaxRetries <= |replies|
    ensures 1 <= c.attempts <= MaxRetries
    ensures forall j | 0 <= j < c.attempts - 1 :: !IsOk(replies[j]) && !IsBusy(replies[j])
    ensures c.attempts < MaxRetries ==> IsOk(replies[c.attempts - 1]) || IsBusy(replies[c.attempts - 1])
    ensures c.result.Success? <==> IsOk(replies[c.attempts - 1])
    ensures c.result.Success? ==> c.result.value == replies[c.attempts - 1].body
    ensures c.result == Failure(VideoProcessing(DeleteBlockedMessage)) <==> IsBusy(replies[c.attempts - 1])
    ensures c.result.Failure? && !IsBusy(replies[c.attempts - 1]) ==>
              c.attempts == MaxRetries && c.result.error == ApiError(FailureMessage(replies[MaxRetries - 1]))
    ensures |c.delays| == c.attempts - 1 && forall i | 0 <= i < |c.delays| :: c.delays[i] == 2 * (i + 1)
  {
    Attempt(replies, 0, true)
  }

  /** The reply of `remove_from_queue` that is not an error. */
  datatype Ack = Removed(body: Body) | Unsupported(note: string)

  /**
   * `remove_from_queue`: one attempt. A 404 means the server lacks the endpoint and is not
   * an error; a busy 409 is `video_processing`; any other non-200 is `api_error`.
   */
  function RemoveFromQueue(reply: Reply): (r: Result<Ack, ClientError>)
    ensures r.Success? <==> reply.Http? && (reply.code == 200 || reply.code == 404)
    ensures r.Success? ==> r.value == (if reply.code == 404 then Unsupported(QueueUnsupportedMessage) else Removed(reply.body))
    ensures r.Failure? && r.error.VideoProcessing? <==> IsBusy(reply)
    ensures IsBusy(reply) ==> r.error.message == RemoveBlockedMessage
    ensures reply.TransportError? ==> r == Failure(TransportFailure(reply.message))
    ensures r.Failure? && r.error.ApiError? <==> reply.Http? && reply.code != 200 && reply.code != 404 && !IsBusy(reply)
    ensures r.Failure? && r.error.ApiError? ==> r.error.message == StatusCodeMessage(reply.code)
  {
    match reply
    case TransportError(m) => Failure(TransportFailure(m))
    case Http(code, body) =>
      if code == 404 then Success(Unsupported(QueueUnsupportedMessage))
      else if code == 409 && body.isProcessing then Failure(VideoProcessing(RemoveBlockedMessage))
      else if code != 200 then Failure(ApiError(StatusCodeMessage(code)))
      else Success(Removed(body))
  }

  /** Two transport failures in a row exhaust the convert call with the second failure's message. */
  lemma TwoTransportFailures(first: string, second: string)
    ensures var c := SendVideoRequest([TransportError(first), TransportError(second)]);
            c.attempts == 2 && c.result == Failure(ApiError(second)) && c.delays == [2]
  {
  }

  /** A busy 409 on the first delete attempt stops the loop without a second attempt. */
  lemma BusyDeleteStopsAtOnce(replies: seq<Reply>)
    requires MaxRetries <= |replies| && IsBusy(replies[0])
    ensures DeleteVideoFromS3(replies) == Call(Failure(VideoProcessing(DeleteBlockedMessage)), 1, [])
  {
  }
}

=== FILE: common.dfy ===
/** Small value types shared by every module of the model. */
module Common {

  /** A value that may be absent (PHP's `null`). */
  datatype Option<+T> = None | Some(value: T) {
    function GetOr(default: T): T {
      match this
      case Some(v) => v
      case None => default
    }
  }

  /** Either a value or an error, standing for PHP's "object or WP_Error" returns. */
  datatype Result<+R, +E> = Success(value: R) | Failure(error: E)

  /** One column of a partial row update: left as it is, or overwritten with a value. */
  datatype Field<+T> = Keep | Set(value: T) {
    function Or(current: T): T {
      match this
      case Keep => current
      case Set(v) => v
    }
  }

  /** PHP truthiness of a string: both "" and "0" are falsy. */
  predicate Truthy(s: string) {
    s != "" && s != "0"
  }

  /** PHP truthiness of a nullable string. */
  predicate TruthyOpt(s: Option<string>) {
    s.Some? && Truthy(s.value)
  }
}

=== FILE: decimal.dfy ===
/** Decimal rendering of integers, as PHP's `%d` and string interpolation print them. */
module Decimal {
  import opened Common

  predicate IsDigit(c: char) {
    '0' <= c <= '9'
  }

  predicate AllDigits(s: string) {
    forall i | 0 <= i < |s| :: IsDigit(s[i])
  }

  function Digit(d: nat): (c: char)
    requires d < 10
    ensures IsDigit(c) && c as int - '0' as int == d
  {
    ('0' as int + d) as char
  }

  /** The shortest decimal spelling of `n`: no sign and no leading zero. */
  function NatToString(n: nat): (s: string)
    ensures 1 <= |s| && AllDigits(s)
    ensures n < 10 <==> |s| == 1
    ensures n >= 1 ==> s[0] != '0'
    decreases n
  {
    if n < 10 then [Digit(n)] else NatToString(n / 10) + [Digit(n % 10)]
  }

  /** The decimal spelling of an integer: a '-' before the digits of a negative one. */
  function IntToString(i: int): (s: string)
    ensures i >= 0 ==> ParseNat(s) == Some(i)
    ensures i < 0 ==> 1 <= |s| && s[0] == '-' && ParseNat(s[1..]) == Some(-i)
    // the shortest spelling: no leading zero
    ensures i == 0 ==> s == "0"
    ensures i >= 1 ==> s[0] != '0'
    ensures i < 0 ==> 2 <= |s| && s[1] != '0'
  {
    if i < 0 then
      NatToStringRoundTrip(-i);
      var s := "-" + NatToString(-i);
      assert s[1..] == NatToString(-i);
      s
    else
      NatToStringRoundTrip(i);
      NatToString(i)
  }

  /** The number a string of digits denotes (leading zeros allowed). */
  function Value(s: string): nat
    requires AllDigits(s)
    decreases |s|
  {
    if |s| == 0 then 0 else 10 * Value(s[..|s| - 1]) + (s[|s| - 1] as int - '0' as int)
  }

  function ParseNat(s: string): (r: Option<nat>)
    ensures r.Some? <==> 1 <= |s| && AllDigits(s)
  {
    if 1 <= |s| && AllDigits(s) then Some(Value(s)) else None
  }

  /** Reading back a rendered natural number gives the number. */
  lemma {:induction false} NatToStringRoundTrip(n: nat)
    ensures ParseNat(NatToString(n)) == Some(n)
    decreases n
  {
    if n >= 10 {
      var prefix := NatToString(n / 10);
      NatToStringRoundTrip(n / 10);
      var s := prefix + [Digit(n % 10)];
      assert s == NatToString(n);
      assert s[..|s| - 1] == prefix;
      assert Value(s) == 10 * Value(prefix) + n % 10;
    } else {
      assert Value(NatToString(n)) == 10 * Value([]) + n;
    }
  }
}

=== FILE: format.dfy ===
/** The two display helpers of the job list: the duration column and the status label. */
module Format {
  import opened Common
  import opened Decimal

  /** A duration split into clock fields. */
  datatype Clock = Clock(hours: nat, minutes: nat, seconds: nat)

  /** The clock fields of a positive number of seconds (floored hours, then minutes, then seconds). */
  function ClockOf(total: int): (c: Clock)
    requires total > 0
    ensures c.hours * 3600 + c.minutes * 60 + c.seconds == total
    ensures c.minutes < 60 && c.seconds < 60
    ensures c.hours > 0 <==> total >= 3600
  {
    var rest := total % 3600;
    assert total == 3600 * (total / 3600) + rest;
    assert rest == 60 * (rest / 60) + rest % 60;
    assert rest % 60 == total % 60 by {
      assert total == 60 * (60 * (total / 3600) + rest / 60) + rest % 60;
    }
    Clock(total / 3600, rest / 60, total % 60)
  }

  /** The fields are the only ones with in-range minutes and seconds that add up to the total. */
  lemma ClockOfUnique(total: int, c: Clock)
    requires total > 0
    requires c.minutes < 60 && c.seconds < 60
    requires c.hours * 3600 + c.minutes * 60 + c.seconds == total
    ensures c == ClockOf(total)
  {
  }

  /** `sprintf('%02d', n)` for a non-negative `n`: at least two digits, zero-padded. */
  function Pad2(n: nat): (s: string)
    ensures 2 <= |s| && AllDigits(s)
    ensures n < 100 ==> |s| == 2
    ensures n >= 10 ==> s[0] != '0' && s == NatToString(n)
    ensures ParseNat(s) == Some(n)
  {
    NatToStringRoundTrip(n);
    if n < 10 then
      var s := "0" + NatToString(n);
      assert s[..|s| - 1] == "0";
      assert Value("0") == 10 * Value("") + 0;
      s
    else
      NatToString(n)
  }

  /** The duration column: "-" for no duration, "MM:SS" below an hour, "HH:MM:SS" from an hour on. */
  function FormatDuration(seconds: int): (r: string)
    ensures r == "-" <==> seconds <= 0
  {
    if seconds <= 0 then "-"
    else
      var c := ClockOf(seconds);
      if c.hours > 0 then Pad2(c.hours) + ":" + Pad2(c.minutes) + ":" + Pad2(c.seconds)
      else Pad2(c.minutes) + ":" + Pad2(c.seconds)
  }

  /** The ':'-separated fields of a string. */
  function SplitColon(s: string): (parts: seq<string>)
    ensures 1 <= |parts|
    decreases |s|
  {
    if |s| == 0 then [""]
    else if s[0] == ':' then [""] + SplitColon(s[1..])
    else
      var rest := SplitColon(s[1..]);
      [[s[0]] + rest[0]] + rest[1..]
  }

  /** Reads a "MM:SS" or "HH:MM:SS" column back into clock fields. */
  function ParseClock(r: string): Option<Clock> {
    var parts := SplitColon(r);
    if |parts| == 2 && ParseNat(parts[0]).Some? && ParseNat(parts[1]).Some? then
      Some(Clock(0, ParseNat(parts[0]).value, ParseNat(parts[1]).value))
    else if |parts| == 3 && ParseNat(parts[0]).Some? && ParseNat(parts[1]).Some? && ParseNat(parts[2]).Some? then
      Some(Clock(ParseNat(parts[0]).value, ParseNat(parts[1]).value, ParseNat(parts[2]).value))
    else None
  }

  lemma {:induction false} SplitColonSingle(a: string)
    requires ':' !in a
    ensures SplitColon(a) == [a]
    decreases |a|
  {
    if |a| > 0 {
      assert ':' !in a[1..];
      SplitColonSingle(a[1..]);
      assert [a[0]] + a[1..] == a;
    }
  }

  lemma {:induction false} SplitColonJoin(a: string, b: string)
    requires ':' !in a
    ensures SplitColon(a + ":" + b) == [a] + SplitColon(b)
    decreases |a|
  {
    if |a| == 0 {
      assert a + ":" + b == [':'] + b;
      assert (a + ":" + b)[1..] == b;
    } else {
      assert (a + ":" + b)[1..] == a[1..] + ":" + b;
      assert ':' !in a[1..];
      SplitColonJoin(a[1..], b);
      assert [a[0]] + a[1..] == a;
    }
  }

  lemma DigitsHaveNoColon(s: string)
    requires AllDigits(s)
    ensures ':' !in s
  {
  }

  /**
   * A positive duration reads back as its own clock fields, and the hours field is
   * present exactly from one hour on.
   */
  lemma FormatDurationRoundTrip(seconds: int)
    requires seconds > 0
    ensures ParseClock(FormatDuration(seconds)) == Some(ClockOf(seconds))
    ensures |SplitColon(FormatDuration(seconds))| == (if seconds >= 3600 then 3 else 2)
  {
    var c := ClockOf(seconds);
    var h, m, s := Pad2(c.hours), Pad2(c.minutes), Pad2(c.seconds);
    DigitsHaveNoColon(h);
    DigitsHaveNoColon(m);
    DigitsHaveNoColon(s);
    SplitColonSingle(s);
    SplitColonJoin(m, s);
    if c.hours > 0 {
      assert FormatDuration(seconds) == h + ":" + (m + ":" + s);
      SplitColonJoin(h, m + ":" + s);
    } else {
      assert FormatDuration(seconds) == m + ":" + s;
    }
  }

  /** Status values and their display labels; note the hyphenated `uploading-original` key. */
  const StatusLabels: map<string, string> := map[
    "pending" := "Pending",
    "queued" := "In Queue",
    "downloading" := "Downloading",
    "uploading-original" := "Uploading Original Video",
    "converting" := "Converting to HLS",
    "uploading" := "Uploading to S3",
    "completed" := "Completed",
    "failed" := "Failed"
  ]

  /** The label shown for a status; an unknown status is shown as it is. */
  function StatusLabel(status: string): (shown: string)
    ensures status in StatusLabels ==> shown == StatusLabels[status]
    ensures shown == status <==> status !in StatusLabels
  {
    if status in StatusLabels then StatusLabels[status] else status
  }

  /** The underscore spelling of the state has no label and is shown verbatim. */
  lemma UnderscoreStateHasNoLabel()
    ensures StatusLabel("uploading_original") == "uploading_original"
    ensures StatusLabel("uploading-original") == "Uploading Original Video"
  {
  }
}

=== FILE: lifecycle.dfy ===
/**
 * The job lifecycle of the `VODPress` class: submitting a new video, retrying an existing
 * one, and the gated deletion. WordPress options, HTTP, the uuid generator and the
 * database's own failures are inputs; the outcome is the new table, the caller-facing
 * result and the list of requests sent to the conversion server.
 */
module Lifecycle {
  import opened Common
  import opened Client
  import opened Store
  import Decimal

  /** The plugin's configuration: the `VODPRESS_API_KEY` constant (if defined) and two options. */
  datatype Config = Config(apiKey: Option<string>, serverUrl: string, publicUrlBase: string)

  /** Whether an API client exists or can be created: the key is defined and the server URL is truthy. */
  predicate ClientConfigured(cfg: Config) {
    cfg.apiKey.Some? && Truthy(cfg.serverUrl)
  }

  /** The caller-facing errors, one per `WP_Error` code or JSON error message. */
  datatype Error =
    | ConfigurationError       // send_video, retry_existing_video
    | NotConfigured            // ajax_delete_video
    | ApiKeyMissing
    | ServerUrlMissing
    | UrlRequired
    | TitleRequired
    | InvalidUrl
    | UrlNotAccessible
    | UrlHttpError(code: int)
    | DbError
    | Remote(cause: ClientError)
    | InvalidId
    | NotFound
    | Blocked(message: string)
    | DeleteFailed
  {
    function Message(): string {
      match this
      case ConfigurationError => "Plugin not properly configured. Please check API key and server URL."
      case NotConfigured => "Plugin not properly configured"
      case ApiKeyMissing => "API key is not defined in wp-config.php"
      case ServerUrlMissing => "Server URL is not configured"
      case UrlRequired => "Video URL is required"
      case TitleRequired => "Video title is required"
      case InvalidUrl => "Invalid video URL format"
      case UrlNotAccessible => "Video URL is not accessible"
      case UrlHttpError(code) => HttpErrorPrefix + Decimal.IntToString(code)
      case DbError => "Failed to create video record"
      case Remote(cause) => cause.Message()
      case InvalidId => "Invalid video ID"
      case NotFound => "Video not found"
      case Blocked(m) => m
      case DeleteFailed => "Failed to delete video from database"
    }
  }

  const HttpErrorPrefix := "Video URL returned HTTP error: "

  /** A request sent to the conversion server (a retrying call is one request however many attempts it makes). */
  datatype Request =
    | ConvertRequest(videoUrl: string, uuid: string)
    | RemoveRequest(uuid: string)
    | DeleteRequest(uuid: string)

  datatype Outcome<T> = Outcome(table: Table, result: Result<T, Error>, sent: seq<Request>)

  /** The reply to the header-only reachability probe of the video URL. */
  datatype HeadReply = HeadFailed | HeadStatus(code: int)

  const ReachableCodes: set<int> := {200, 206, 301, 302, 303}

  /** `validate_video_url`: the URL must be well formed and answer the probe with a reachable code. */
  function ValidateVideoUrl(wellFormed: bool, head: HeadReply): (r: Option<Error>)
    ensures r.None? <==> wellFormed && head.HeadStatus? && head.code in ReachableCodes
    ensures !wellFormed ==> r == Some(InvalidUrl)
    ensures wellFormed && head.HeadFailed? ==> r == Some(UrlNotAccessible)
    ensures wellFormed && head.HeadStatus? && head.code !in ReachableCodes ==> r == Some(UrlHttpError(head.code))
    // the HTTP error message ends in the status code, read back exactly
    ensures r.Some? && r.value.UrlHttpError? ==>
              var m := r.value.Message();
              && HttpErrorPrefix <= m
              && (r.value.code >= 0 ==> Decimal.ParseNat(m[|HttpErrorPrefix|..]) == Some(r.value.code))
  {
    if !wellFormed then Some(InvalidUrl)
    else match head
      case HeadFailed => Some(UrlNotAccessible)
      case HeadStatus(code) => if code in ReachableCodes then None else Some(UrlHttpError(code))
  }

  /** What the outside world supplies to one submission. */
  datatype SubmitEnv = SubmitEnv(
    urlWellFormed: bool,    // filter_var(url, FILTER_VALIDATE_URL)
    head: HeadReply,        // wp_remote_head(url)
    uuid: string,           // wp_generate_uuid4()
    insertFails: bool,      // the database refuses the INSERT for a reason of its own
    replies: seq<Reply>)    // the convert call's replies, one per attempt

  function FailedPatch(message: string): Patch {
    Patch(Set("failed"), Keep, Keep, Set(Some(message)), Keep)
  }

  /** The convert reply names this video as the one the server is working on now. */
  predicate IsCurrent(body: Body, uuid: string) {
    TruthyOpt(body.currentlyProcessing) && body.currentlyProcessing.value == uuid
  }

  /** The status update a successful convert reply asks for: none when the video is neither processing nor queued. */
  function AcceptedPatch(body: Body, uuid: string): (p: Patch)
    ensures p.status == Set("downloading") <==> IsCurrent(body, uuid)
    ensures p.status == Set("queued") <==> !IsCurrent(body, uuid) && body.queuePosition.Some?
    ensures p.status.Keep? <==> !IsCurrent(body, uuid) && body.queuePosition.None?
    ensures p.conversionUrl.Keep? && p.originalUrl.Keep? && p.errorMessage.Keep? && p.duration.Keep?
  {
    var status :=
      if IsCurrent(body, uuid) then Set("downloading")
      else if body.queuePosition.Some? then Set("queued")
      else Keep;
    Patch(status, Keep, Keep, Keep, Keep)
  }

  /** `send_video`: validate, insert a `pending` row under a fresh uuid, send it, record the reply. */
  function SendVideo(cfg: Config, t: Table, url: string, title: string, env: SubmitEnv): (o: Outcome<Body>)
    requires MaxRetries <= |env.replies|
    // nothing is created, and nothing sent, unless configuration, URL and insert all pass
    ensures !ClientConfigured(cfg) ==> o == Outcome(t, Failure(ConfigurationError), [])
    ensures ClientConfigured(cfg) && ValidateVideoUrl(env.urlWellFormed, env.head).Some? ==>
              o == Outcome(t, Failure(ValidateVideoUrl(env.urlWellFormed, env.head).value), [])
    ensures ClientConfigured(cfg) && ValidateVideoUrl(env.urlWellFormed, env.head).None? &&
            (env.insertFails || UuidTaken(t.rows, env.uuid)) ==>
              o == Outcome(t, Failure(DbError), [])
    // otherwise exactly one new row, under a uuid no other row has, and one convert request
    ensures o.table != t <==>
              ClientConfigured(cfg) && ValidateVideoUrl(env.urlWellFormed, env.head).None? &&
              !env.insertFails && !UuidTaken(t.rows, env.uuid)
    ensures o.table != t ==>
              && o.table.nextId == t.nextId + 1
              && t.nextId in o.table.rows
              && o.table.rows == t.rows[t.nextId := o.table.rows[t.nextId]]
              && (forall id | id in t.rows :: t.rows[id].uuid != env.uuid)
              && o.sent == [ConvertRequest(url, env.uuid)]
    ensures o.table != t ==>
              var job := o.table.rows[t.nextId];
              && job.uuid == env.uuid && job.videoUrl == url && job.title == title
              && job.conversionUrl.None? && job.originalUrl.None? && job.duration == 0
              && match SendVideoRequest(env.replies).result
                 case Failure(e) =>
                   job.status == "failed" && job.errorMessage == Some(e.Message()) && o.result == Failure(Remote(e))
                 case Success(b) =>
                   && job.errorMessage.None?
                   && o.result == Success(b)
                   && (IsCurrent(b, env.uuid) ==> job.status == "downloading")
                   && (!IsCurrent(b, env.uuid) && b.queuePosition.Some? ==> job.status == "queued")
                   && (!IsCurrent(b, env.uuid) && b.queuePosition.None? ==> job.status == "pending")
    // a remote error is answered with the very message the kept row records
    ensures o.result.Failure? && o.result.error.Remote? ==>
              t.nextId in o.table.rows && o.table.rows[t.nextId].errorMessage == Some(o.result.error.Message())
    ensures Valid(t) ==> Valid(o.table)
  {
    if !ClientConfigured(cfg) then Outcome(t, Failure(ConfigurationError), [])
    else match ValidateVideoUrl(env.urlWellFormed, env.head)
      case Some(e) => Outcome(t, Failure(e), [])
      case None =>
        match Insert(t, NewJob(env.uuid, url, title), env.insertFails)
        case Rejected => Outcome(t, Failure(DbError), [])
        case Inserted(t1, id) =>
          var sent := [ConvertRequest(url, env.uuid)];
          match SendVideoRequest(env.replies).result
          case Failure(e) => Outcome(UpdateById(t1, id, FailedPatch(e.Message())), Failure(Remote(e)), sent)
          case Success(b) => Outcome(UpdateById(t1, id, AcceptedPatch(b, env.uuid)), Success(b), sent)
  }

  const SubmittedMessage := "Video submitted successfully!"

  /** `ajax_submit_video`: configuration and required-field checks in front of `SendVideo`. */
  function SubmitVideo(cfg: Config, t: Table, url: string, title: string, env: SubmitEnv): (o: Outcome<string>)
    requires MaxRetries <= |env.replies|
    ensures cfg.apiKey.None? ==> o == Outcome(t, Failure(ApiKeyMissing), [])
    ensures cfg.apiKey.Some? && !Truthy(cfg.serverUrl) ==> o == Outcome(t, Failure(ServerUrlMissing), [])
    ensures ClientConfigured(cfg) && !Truthy(url) ==> o == Outcome(t, Failure(UrlRequired), [])
    ensures ClientConfigured(cfg) && Truthy(url) && !Truthy(title) ==> o == Outcome(t, Failure(TitleRequired), [])
    ensures ClientConfigured(cfg) && Truthy(url) && Truthy(title) ==>
              var inner := SendVideo(cfg, t, url, title, env);
              && o.table == inner.table
              && o.sent == inner.sent
              && (inner.result.Failure? ==> o.result == Failure(inner.result.error))
              && (inner.result.Success? ==> o.result == Success(SubmittedMessage))
    ensures o.result.Success? ==> o.result.value == SubmittedMessage && o.table.rows.Keys == t.rows.Keys + {t.nextId}
    ensures o.result.Failure? && o.result.error.Remote? ==>
              t.nextId in o.table.rows && o.table.rows[t.nextId].errorMessage == Some(o.result.error.Message())
    ensures Valid(t) ==> Valid(o.table)
  {
    if cfg.apiKey.None? then Outcome(t, Failure(ApiKeyMissing), [])
    else if !Truthy(cfg.serverUrl) then Outcome(t, Failure(ServerUrlMissing), [])
    else if !Truthy(url) then Outcome(t, Failure(UrlRequired), [])
    else if !Truthy(title) then Outcome(t, Failure(TitleRequired), [])
    else
      var o := SendVideo(cfg, t, url, title, env);
      match o.result
      case Failure(e) => Outcome(o.table, Failure(e), o.sent)
      case Success(_) =>
        assert o.table != t;
        Outcome(o.table, Success(SubmittedMessage), o.sent)
  }

  const RetriedMessage := "Video retry submitted successfully!"

  const ResetPatch := Patch(Set("pending"), Keep, Keep, Set(None), Keep)

  /**
   * `ajax_retry_video` with `retry_existing_video`: whatever the row's status, reset it to
   * `pending` with no error and resend it under its own uuid. A successful reply leaves it
   * `pending`; a failed one marks it `failed`, and the caller is told the message the row records.
   */
  function RetryVideo(cfg: Config, t: Table, id: int, replies: seq<Reply>): (o: Outcome<string>)
    requires MaxRetries <= |replies|
    ensures o.table.nextId == t.nextId && o.table.rows.Keys == t.rows.Keys
    ensures forall k | k in t.rows && k != id :: o.table.rows[k] == t.rows[k]
    ensures id == 0 ==> o == Outcome(t, Failure(InvalidId), [])
    ensures id != 0 && id !in t.rows ==> o == Outcome(t, Failure(NotFound), [])
    ensures id != 0 && id in t.rows && !ClientConfigured(cfg) ==> o == Outcome(t, Failure(ConfigurationError), [])
    ensures id != 0 && id in t.rows && ClientConfigured(cfg) ==>
              var before := t.rows[id];
              var after := o.table.rows[id];
              && o.sent == [ConvertRequest(before.videoUrl, before.uuid)]
              && after == before.(status := after.status, errorMessage := after.errorMessage)
              && match SendVideoRequest(replies).result
                 case Success(_) => after.status == "pending" && after.errorMessage.None? && o.result == Success(RetriedMessage)
                 case Failure(e) =>
                   after.status == "failed" && after.errorMessage == Some(e.Message()) && o.result == Failure(Remote(e))
    ensures o.result.Failure? && o.result.error.Remote? ==>
              id in o.table.rows && o.table.rows[id].errorMessage == Some(o.result.error.Message())
    ensures Valid(t) ==> Valid(o.table)
  {
    if id == 0 then Outcome(t, Failure(InvalidId), [])
    else if id !in t.rows then Outcome(t, Failure(NotFound), [])
    else if !ClientConfigured(cfg) then Outcome(t, Failure(ConfigurationError), [])
    else
      var job := t.rows[id];
      var t1 := UpdateById(t, id, ResetPatch);
      var sent := [ConvertRequest(job.videoUrl, job.uuid)];
      match SendVideoRequest(replies).result
      case Failure(e) => Outcome(UpdateById(t1, id, FailedPatch(e.Message())), Failure(Remote(e)), sent)
      case Success(_) => Outcome(t1, Success(RetriedMessage), sent)
  }

  /** Not yet finished or failed: the job may still be in the server's queue. */
  predicate InQueue(job: Job) {
    job.status != "completed" && job.status != "failed"
  }

  /** Finished with a converted file on the server's storage. */
  predicate HasAsset(job: Job) {
    job.status == "completed" && TruthyOpt(job.conversionUrl)
  }

  /** The verdict of the deletion gates: give up, or delete the row (noting a failed storage cleanup). */
  datatype Decision = Abort(message: string) | Proceed(partial: bool)

  /**
   * The gates of `ajax_delete_video`: a queued job is first removed from the queue, a
   * finished one has its files deleted; only a `video_processing` answer stops the deletion.
   */
  function DeleteGate(job: Job, removeReply: Reply, assetReplies: seq<Reply>): (d: Decision)
    requires MaxRetries <= |assetReplies|
    ensures d.Abort? <==>
              || (InQueue(job) && RemoveFromQueue(removeReply).Failure? && RemoveFromQueue(removeReply).error.VideoProcessing?)
              || (HasAsset(job) && DeleteVideoFromS3(assetReplies).result.Failure?
                  && DeleteVideoFromS3(assetReplies).result.error.VideoProcessing?)
    ensures d == Proceed(true) <==>
              HasAsset(job) && DeleteVideoFromS3(assetReplies).result.Failure?
              && !DeleteVideoFromS3(assetReplies).result.error.VideoProcessing?
    ensures !InQueue(job) && !HasAsset(job) ==> d == Proceed(false)
    ensures d.Abort? ==> d.message == (if InQueue(job) then RemoveBlockedMessage else DeleteBlockedMessage)
  {
    if InQueue(job) && RemoveFromQueue(removeReply) == Failure(VideoProcessing(RemoveBlockedMessage)) then
      Abort(RemoveBlockedMessage)
    else if HasAsset(job) then
      match DeleteVideoFromS3(assetReplies).result
      case Success(_) => Proceed(false)
      case Failure(e) => if e.VideoProcessing? then Abort(e.Message()) else Proceed(true)
    else Proceed(false)
  }

  const DeletedMessage := "Video deleted successfully"
  const PartlyDeletedMessage := "Video removed from database but there was an error deleting converted files"

  /** The requests the deletion gates send for a job. */
  function GateRequests(job: Job): seq<Request> {
    (if InQueue(job) then [RemoveRequest(job.uuid)] else []) + (if HasAsset(job) then [DeleteRequest(job.uuid)] else [])
  }

  /** `ajax_delete_video`: run the gates, then delete the row unless they abort. */
  function DeleteVideo(cfg: Config, t: Table, id: int, removeReply: Reply, assetReplies: seq<Reply>, dbFails: bool)
    : (o: Outcome<string>)
    requires MaxRetries <= |assetReplies|
    ensures o.table.nextId == t.nextId
    ensures o.table == t || (id in t.rows && o.table.rows == t.rows - {id})
    ensures id == 0 ==> o == Outcome(t, Failure(InvalidId), [])
    ensures id != 0 && id !in t.rows ==> o == Outcome(t, Failure(NotFound), [])
    ensures id != 0 && id in t.rows && !ClientConfigured(cfg) ==> o == Outcome(t, Failure(NotConfigured), [])
    ensures id != 0 && id in t.rows && ClientConfigured(cfg) ==>
              var job := t.rows[id];
              && o.sent == GateRequests(job)
              && match DeleteGate(job, removeReply, assetReplies)
                 case Abort(m) => o.table == t && o.result == Failure(Blocked(m))
                 case Proceed(partial) =>
                   if dbFails then o.table == t && o.result == Failure(DeleteFailed)
                   else o.table.rows == t.rows - {id}
                        && o.result == Success(if partial then PartlyDeletedMessage else DeletedMessage)
    ensures Valid(t) ==> Valid(o.table)
  {
    if id == 0 then Outcome(t, Failure(InvalidId), [])
    else if id !in t.rows then Outcome(t, Failure(NotFound), [])
    else if !ClientConfigured(cfg) then Outcome(t, Failure(NotConfigured), [])
    else
      var job := t.rows[id];
      var sent := GateRequests(job);
      match DeleteGate(job, removeReply, assetReplies)
      case Abort(m) => Outcome(t, Failure(Blocked(m)), sent)
      case Proceed(partial) =>
        if dbFails then Outcome(t, Failure(DeleteFailed), sent)
        else Outcome(Remove(t, id), Success(if partial then PartlyDeletedMessage else DeletedMessage), sent)
  }
}

=== FILE: listing.dfy ===
/** `ajax_get_videos_status`: the job list, filtered by title and newest first, with display columns. */
module Listing {
  import opened Common
  import opened Store
  import opened Format

  /** One entry of the list (the two date columns are not modelled). */
  datatype VideoRow = VideoRow(
    id: int,
    title: string,
    videoUrl: string,
    status: string,
    statusLabel: string,
    durationFormatted: string,
    conversionUrl: Option<string>,
    originalUrl: Option<string>,
    errorMessage: Option<string>)

  function RowOf(id: int, j: Job): VideoRow {
    VideoRow(id, j.title, j.videoUrl, j.status, StatusLabel(j.status), FormatDuration(j.duration),
             j.conversionUrl, j.originalUrl, j.errorMessage)
  }

  /**
   * The list for a search term: the entries of the searched ids, in the search's
   * newest-first order, each showing its row's columns with label and formatted duration.
   */
  function ListVideos(t: Table, term: string): (rows: seq<VideoRow>)
    ensures |rows| == |Search(t, term)|
    ensures forall i | 0 <= i < |rows| ::
              && rows[i].id == Search(t, term)[i]
              && rows[i].id in t.rows
              && rows[i] == RowOf(rows[i].id, t.rows[rows[i].id])
    ensures forall i, j | 0 <= i < j < |rows| :: rows[i].id > rows[j].id
  {
    Rows(t.rows, Search(t, term))
  }

  /** The entries for a sequence of existing ids, in that order. */
  function Rows(rows: map<int, Job>, ids: seq<int>): (r: seq<VideoRow>)
    requires forall i | 0 <= i < |ids| :: ids[i] in rows
    ensures |r| == |ids|
    ensures forall i | 0 <= i < |r| :: r[i] == RowOf(ids[i], rows[ids[i]])
  {
    seq(|ids|, i requires 0 <= i < |ids| => RowOf(ids[i], rows[ids[i]]))
  }
}

=== FILE: scenarios.dfy ===
/** Concrete runs of the lifecycle, each pinned to one situation the plugin is built for. */
module Scenarios {
  import opened Common
  import opened Client
  import opened Store
  import opened Lifecycle
  import opened Callback

  const Cfg := Config(Some("secret"), "https://convert.example.com", "")
  const VideoUrl := "https://example.com/a.mp4"
  const Uuid := "6f1c2a0e-0000-4000-8000-000000000001"

  function Env(replies: seq<Reply>): SubmitEnv {
    SubmitEnv(true, HeadStatus(200), Uuid, false, replies)
  }

  const NoBody := Body(false, None, None)

  /** The server starts on the video at once: the new row is `downloading`. */
  lemma SubmitStartsDownloading()
    ensures var reply := Http(200, Body(false, Some(Uuid), None));
            var o := SendVideo(Cfg, EmptyTable, VideoUrl, "Demo", Env([reply, reply]));
            o.table.rows == map[1 := NewJob(Uuid, VideoUrl, "Demo").(status := "downloading")]
  {
  }

  /** The server queues the video: the new row is `queued`. */
  lemma SubmitQueues()
    ensures var reply := Http(200, Body(false, None, Some(3)));
            var o := SendVideo(Cfg, EmptyTable, VideoUrl, "Demo", Env([reply, reply]));
            o.table.rows == map[1 := NewJob(Uuid, VideoUrl, "Demo").(status := "queued")]
            && o.result == Success(Body(false, None, Some(3)))
  {
  }

  /** Two transport failures: the row is kept, `failed`, with the second failure's message. */
  lemma SubmitFailsTwice()
    ensures var o := SendVideo(Cfg, EmptyTable, VideoUrl, "Demo",
                               Env([TransportError("timeout"), TransportError("refused")]));
            o.table.rows == map[1 := NewJob(Uuid, VideoUrl, "Demo").(status := "failed", errorMessage := Some("refused"))]
            && o.result == Failure(Remote(ApiError("refused")))
  {
  }

  /** A probe answering 404 rejects the URL and leaves the table empty. */
  lemma SubmitUnreachable()
    ensures var o := SendVideo(Cfg, EmptyTable, VideoUrl, "Demo",
                               SubmitEnv(true, HeadStatus(404), Uuid, false, [Http(200, NoBody), Http(200, NoBody)]));
            o == Outcome(EmptyTable, Failure(UrlHttpError(404)), [])
  {
  }

  /** A queued job the server is already processing cannot be deleted. */
  lemma DeleteBlockedWhileProcessing(job: Job, assetReplies: seq<Reply>, dbFails: bool)
    requires MaxRetries <= |assetReplies| && job.status == "queued"
    ensures var t := Table(map[1 := job], 2);
            var o := DeleteVideo(Cfg, t, 1, Http(409, Body(true, None, None)), assetReplies, dbFails);
            o.table == t && o.result == Failure(Blocked(RemoveBlockedMessage))
  {
  }

  const Prim := Primitives(
    s => if s == "secret" then "abc123" else "other",
    u => if u == "https://origin/x/y.mp4" then Path("/x/y.mp4")
         else if u == "https://origin/out.m3u8" then Path("/out.m3u8")
         else if u == "out.m3u8" then Path("out.m3u8") else Malformed,
    s => s)

  /** With no public base, a completion report is stored as sent. */
  lemma CallbackCompletes(job: Job)
    requires job.uuid == Uuid
    ensures var req := CallbackRequest(Some("abc123"), Some(Uuid), Some("completed"),
                                       Some("https://origin/out.m3u8"), None, Some(125), None);
            var o := HandleCallback(Cfg, Prim, Table(map[1 := job], 2), req);
            o.1 == Accepted
            && o.0.rows[1] == job.(status := "completed", conversionUrl := Some("https://origin/out.m3u8"), duration := 125)
  {
  }

  const BaseCfg := Config(Some("secret"), "https://convert.example.com", "https://r2.example.com/")

  /** With a public base, a stored storage URL keeps its path under the base. */
  lemma CallbackRewritesUrl(job: Job)
    requires job.uuid == Uuid
    ensures var req := CallbackRequest(Some("abc123"), Some(Uuid), Some("completed"),
                                       Some("https://origin/x/y.mp4"), None, None, None);
            var o := HandleCallback(BaseCfg, Prim, Table(map[1 := job], 2), req);
            o.1 == Accepted && o.0.rows[1].conversionUrl == Some("https://r2.example.com/x/y.mp4")
    ensures RewriteUrl("https://origin/x/y.mp4", "https://r2.example.com", Prim) == "https://r2.example.com/x/y.mp4"
  {
    var req := CallbackRequest(Some("abc123"), Some(Uuid), Some("completed"),
                               Some("https://origin/x/y.mp4"), None, None, None);
    assert TrimTrailingSlashes("https://r2.example.com/") == "https://r2.example.com";
    assert RewriteUrl("https://origin/x/y.mp4", BaseCfg.publicUrlBase, Prim) == "https://r2.example.com/x/y.mp4";
    assert CallbackPatch(BaseCfg, Prim, req).conversionUrl == Set("https://r2.example.com/x/y.mp4");
  }

  /** A relative path is glued onto the base with no slash between them. */
  lemma RelativePathRewrite()
    ensures RewriteUrl("out.m3u8", "https://r2.example.com/", Prim) == "https://r2.example.comout.m3u8"
  {
    assert TrimTrailingSlashes("https://r2.example.com/") == "https://r2.example.com";
  }

  /** A report with the wrong hash changes nothing. */
  lemma CallbackWrongHash(t: Table, req: CallbackRequest)
    requires req.keyHash == Some("forged")
    ensures HandleCallback(Cfg, Prim, t, req) == (t, Unauthorized)
  {
  }
}

=== FILE: store.dfy ===
/**
 * The `vodpress_videos` table: rows keyed by an auto-increment id, a UNIQUE `uuid`
 * column, partial updates by id or by uuid, deletion by id, and the title search of
 * the job list.
 */
module Store {
  import opened Common

  /** One row of the table (timestamps are not modelled). */
  datatype Job = Job(
    uuid: string,
    videoUrl: string,
    title: string,
    status: string,
    conversionUrl: Option<string>,
    originalUrl: Option<string>,
    errorMessage: Option<string>,
    duration: int)

  /** The row `send_video` inserts: `pending`, nullable columns NULL, duration at its default 0. */
  function NewJob(uuid: string, videoUrl: string, title: string): Job {
    Job(uuid, videoUrl, title, "pending", None, None, None, 0)
  }

  /** The columns one `UPDATE` sets; the others are left as they are. */
  datatype Patch = Patch(
    status: Field<string>,
    conversionUrl: Field<string>,
    originalUrl: Field<string>,
    errorMessage: Field<Option<string>>,
    duration: Field<int>)

  function Apply(j: Job, p: Patch): (r: Job)
    ensures r.uuid == j.uuid && r.videoUrl == j.videoUrl && r.title == j.title
    ensures r.status == (if p.status.Set? then p.status.value else j.status)
    ensures r.conversionUrl == (if p.conversionUrl.Set? then Some(p.conversionUrl.value) else j.conversionUrl)
    ensures r.originalUrl == (if p.originalUrl.Set? then Some(p.originalUrl.value) else j.originalUrl)
    ensures r.errorMessage == (if p.errorMessage.Set? then p.errorMessage.value else j.errorMessage)
    ensures r.duration == (if p.duration.Set? then p.duration.value else j.duration)
  {
    j.(status := p.status.Or(j.status),
       conversionUrl := if p.conversionUrl.Set? then Some(p.conversionUrl.value) else j.conversionUrl,
       originalUrl := if p.originalUrl.Set? then Some(p.originalUrl.value) else j.originalUrl,
       errorMessage := p.errorMessage.Or(j.errorMessage),
       duration := p.duration.Or(j.duration))
  }

  /** Applying the same update twice leaves the row as applying it once. */
  lemma ApplyIdempotent(j: Job, p: Patch)
    ensures Apply(Apply(j, p), p) == Apply(j, p)
  {
  }

  /** The rows and the next auto-increment value. */
  datatype Table = Table(rows: map<int, Job>, nextId: int)

  const EmptyTable := Table(map[], 1)

  ghost predicate UniqueUuids(rows: map<int, Job>) {
    forall a, b | a in rows && b in rows && a != b :: rows[a].uuid != rows[b].uuid
  }

  /** Ids lie below the auto-increment counter and no two rows share a uuid. */
  ghost predicate Valid(t: Table) {
    && 1 <= t.nextId
    && (forall id | id in t.rows :: 1 <= id < t.nextId)
    && UniqueUuids(t.rows)
  }

  predicate UuidTaken(rows: map<int, Job>, uuid: string) {
    exists id | id in rows :: rows[id].uuid == uuid
  }

  datatype Insertion = Inserted(table: Table, id: int) | Rejected

  /**
   * `INSERT`: the row gets the next auto-increment id. It is rejected when the database
   * fails (`dbFails`) or when the uuid is already in use (the UNIQUE key).
   */
  function Insert(t: Table, job: Job, dbFails: bool): (r: Insertion)
    ensures r.Inserted? <==> !dbFails && !UuidTaken(t.rows, job.uuid)
    ensures r.Inserted? ==> r.id == t.nextId && r.table == Table(t.rows[r.id := job], t.nextId + 1)
    ensures r.Inserted? && Valid(t) ==> r.id !in t.rows && Valid(r.table)
  {
    if dbFails || UuidTaken(t.rows, job.uuid) then Rejected
    else Inserted(Table(t.rows[t.nextId := job], t.nextId + 1), t.nextId)
  }

  /** `UPDATE ... WHERE id = id`: only that row changes, and only in the patched columns. */
  function UpdateById(t: Table, id: int, p: Patch): (r: Table)
    ensures r.nextId == t.nextId && r.rows.Keys == t.rows.Keys
    ensures forall k | k in t.rows && k != id :: r.rows[k] == t.rows[k]
    ensures id in t.rows ==> r.rows[id] == Apply(t.rows[id], p)
    ensures Valid(t) ==> Valid(r)
  {
    if id in t.rows then t.(rows := t.rows[id := Apply(t.rows[id], p)]) else t
  }

  /** `UPDATE ... WHERE uuid = uuid`: every row carrying that uuid is patched, the others are untouched. */
  function UpdateByUuid(t: Table, uuid: string, p: Patch): (r: Table)
    ensures r.nextId == t.nextId && r.rows.Keys == t.rows.Keys
    ensures forall k | k in t.rows ::
              r.rows[k] == if t.rows[k].uuid == uuid then Apply(t.rows[k], p) else t.rows[k]
    ensures !UuidTaken(t.rows, uuid) ==> r == t
    ensures Valid(t) ==> Valid(r)
  {
    var rows := map k | k in t.rows :: if t.rows[k].uuid == uuid then Apply(t.rows[k], p) else t.rows[k];
    if !UuidTaken(t.rows, uuid) then
      assert forall k | k in t.rows :: t.rows[k].uuid != uuid;
      assert rows == t.rows;
      t
    else
      t.(rows := rows)
  }

  /** Patching by uuid twice with the same update gives the table patching once gives. */
  lemma UpdateByUuidIdempotent(t: Table, uuid: string, p: Patch)
    ensures UpdateByUuid(UpdateByUuid(t, uuid, p), uuid, p) == UpdateByUuid(t, uuid, p)
  {
  }

  /** `DELETE ... WHERE id = id`. */
  function Remove(t: Table, id: int): (r: Table)
    ensures r.nextId == t.nextId && r.rows.Keys == t.rows.Keys - {id}
    ensures forall k | k in r.rows :: r.rows[k] == t.rows[k]
    ensures Valid(t) ==> Valid(r)
  {
    t.(rows := t.rows - {id})
  }

  /** `sub` occurs in `s` as a contiguous run. */
  predicate Contains(s: string, sub: string) {
    exists i | 0 <= i <= |s| - |sub| :: OccursAt(s, sub, i)
  }

  predicate OccursAt(s: string, sub: string, i: nat) {
    i + |sub| <= |s| && s[i..i + |sub|] == sub
  }

  /** The search filter: an empty (falsy) term matches every row, otherwise the title must contain it. */
  predicate MatchesTerm(j: Job, term: string) {
    !Truthy(term) || Contains(j.title, term)
  }

  /** The matching ids below `hi`, largest first. */
  function Collect(rows: map<int, Job>, term: string, hi: int): (ids: seq<int>)
    ensures forall i, j | 0 <= i < j < |ids| :: ids[i] > ids[j]
    ensures forall id :: id in ids <==> 1 <= id < hi && id in rows && MatchesTerm(rows[id], term)
    decreases hi
  {
    if hi <= 1 then []
    else
      var here := if hi - 1 in rows && MatchesTerm(rows[hi - 1], term) then [hi - 1] else [];
      var rest := Collect(rows, term, hi - 1);
      assert forall i | 0 <= i < |rest| :: rest[i] < hi - 1 by {
        forall i | 0 <= i < |rest| ensures rest[i] < hi - 1 {
          assert rest[i] in rest;
        }
      }
      here + rest
  }

  /**
   * The job list: the ids of the rows whose title contains the term (all rows for an
   * empty term), newest first.
   */
  function Search(t: Table, term: string): (ids: seq<int>)
    ensures forall i, j | 0 <= i < j < |ids| :: ids[i] > ids[j]
    ensures forall i | 0 <= i < |ids| :: ids[i] in t.rows && MatchesTerm(t.rows[ids[i]], term)
    ensures Valid(t) ==> forall id :: id in ids <==> id in t.rows && MatchesTerm(t.rows[id], term)
  {
    Collect(t.rows, term, t.nextId)
  }
}
